=== FILE: README.md ===
# Coursemology view-state decisions, modelled in Dafny

This project models the decision and state logic inside four React components of
the Coursemology learning-management application. It leaves out their rendering.

- **Forum-post selection dialog** (module `ForumPostSelect`, file `forum_post_select.dfy`).
  A student answering a forum-post-response question picks up to `maxPosts` of their
  forum posts. The class `ForumPostSelectDialog` holds a draft list of post packs,
  which starts as a copy of the parent's list. A click on a post card either appends
  the post, or refuses it with a notification when the cap is reached, or filters
  the post out by id. Confirm is disabled while the draft holds the same ids as the
  parent's list, in any order. Confirm hands the draft to the parent and hides the
  dialog. The draft is reset when the parent's list changes length. Calls to the
  parent's callbacks are recorded in the `effects` field. The module `IdSort`
  holds the sorting used by the "no changes" test.
- **Submission row** (module `SubmissionsIndex`, file `submissions_table_row.dfy`).
  These are decision functions over a submission's workflow state (`Unstarted`,
  `Attempting`, `Submitted`, `Graded`), the viewer's permissions and five page-wide
  busy flags. They decide the grade column, the workflow column, whether the delete
  and unsubmit buttons and the access-logs link appear and are enabled, and when the
  row re-renders. `AllowedActions` is a reference policy the controls are proved to
  follow. The class `SubmissionsTableRow` holds the two confirmation-dialog flags
  and records the delete and unsubmit actions it dispatches.
- **Survey page** (module `Surveys`, file `show_survey.dfy`). It picks the survey to
  show from the store by the id in the URL, builds the edit form's initial values,
  and builds the ordered list of admin actions (edit, then delete).
- **Survey response page** (module `SurveyResponse`, file `response_show.dfy`).
  These are the gates for the loading indicator, the submission-info cells and the
  respond and unsubmit buttons.

`Wrappers` (file `wrappers.dfy`) holds the `Option` and `Result` types.

The model follows the code where a simpler reading of the feature would differ:

- Cancel leaves the draft as it is. Only `setIsVisible(false)` is called; the draft is not discarded.
- The "no changes" test compares sorted id lists. So it compares multisets of ids, where duplicates count, not sets.
- The add path appends without checking for duplicates. Whether a post is already selected comes from the clicked card, as the `isSelected` argument.
- Workflow states are modelled as the four values the row compares against (`Unstarted`, `Attempting`, `Submitted`, `Graded`).

JavaScript's default `sort()` compares the string forms of the ids. The model sorts numerically. `IdSort.Sort` keeps the multiset of ids, so equal sorted lists mean equal multisets. `IdSort.AscendingUnique` gives the other direction for the integer order: two ascending lists with equal multisets are equal. The same argument applies to the string order because it is also total on integer ids, since distinct integers have distinct decimal strings. That last step is reasoning, not something the model proves.

## Model

| member | source | states |
|---|---|---|
| `ForumPostSelect.WithoutPost` | client/app/bundles/course/assessment/submission/components/answers/ForumPostResponse/ForumPostSelectDialog.jsx:114-118 | deselecting never lengthens the draft |
| `ForumPostSelect.WithoutPostCounts` | client/app/bundles/course/assessment/submission/components/answers/ForumPostResponse/ForumPostSelectDialog.jsx:114-118 | after deselecting, no entry carries the post's id and every other entry occurs exactly as often as before |
| `ForumPostSelect.WithoutPostDistributes` | client/app/bundles/course/assessment/submission/components/answers/ForumPostResponse/ForumPostSelectDialog.jsx:114-118 | filtering a concatenation filters each part, so kept entries stay in their original order |
| `ForumPostSelect.WithoutAbsentPost` | client/app/bundles/course/assessment/submission/components/answers/ForumPostResponse/ForumPostSelectDialog.jsx:114-118 | deselecting an id the draft does not hold leaves it unchanged |
| `ForumPostSelect.WithoutPresentPostShrinks` | client/app/bundles/course/assessment/submission/components/answers/ForumPostResponse/ForumPostSelectDialog.jsx:114-118 | deselecting a post the draft holds makes the draft strictly shorter |
| `ForumPostSelect.IdSetAppend` | client/app/bundles/course/assessment/submission/components/answers/ForumPostResponse/ForumPostSelectDialog.jsx:124-126 | the id set of a concatenation is the union of the parts' id sets |
| `ForumPostSelect.WithoutPostIdSet` | client/app/bundles/course/assessment/submission/components/answers/ForumPostResponse/ForumPostSelectDialog.jsx:114-118 | deselecting removes exactly the post's id from the set of selected ids |
| `ForumPostSelect.SelectPostPack` | client/app/bundles/course/assessment/submission/components/answers/ForumPostResponse/ForumPostSelectDialog.jsx:101-120 | a notification is raised iff an unselected post is clicked at or above the cap, and then the draft is unchanged; otherwise an unselected post is appended at the end with earlier entries untouched; a selected one is filtered out by id; only the add path grows the draft and a draft within the cap stays within it |
| `ForumPostSelect.SelectThenDeselectRestores` | client/app/bundles/course/assessment/submission/components/answers/ForumPostResponse/ForumPostSelectDialog.jsx:101-120 | selecting a post absent from a draft below the cap and then deselecting it gives back the original draft |
| `ForumPostSelect.ReplaceKeepsIdSet` | client/app/bundles/course/assessment/submission/components/answers/ForumPostResponse/ForumPostSelectDialog.jsx:101-120 | filtering out a held id and appending one entry with it keeps the set of ids |
| `ForumPostSelect.DeselectThenSelect` | client/app/bundles/course/assessment/submission/components/answers/ForumPostResponse/ForumPostSelectDialog.jsx:101-120 | deselecting a held post and selecting it again raises no notification and restores the set of selected ids; the post moves to the end and duplicate entries with its id collapse to one |
| `ForumPostSelect.SelectionScenario` | client/app/bundles/course/assessment/submission/components/answers/ForumPostResponse/ForumPostSelectDialog.jsx:101-120 | with cap 2 and draft [A]: selecting B gives [A, B]; then C is refused with a notification; then deselecting A gives [B] |
| `IdSort.Sort` | client/app/bundles/course/assessment/submission/components/answers/ForumPostResponse/ForumPostSelectDialog.jsx:197-203 | the sorted id list is a permutation of the input, of the same length |
| `IdSort.SortAscending` | client/app/bundles/course/assessment/submission/components/answers/ForumPostResponse/ForumPostSelectDialog.jsx:197-203 | the sorted id list is ascending |
| `IdSort.AscendingUnique` | client/app/bundles/course/assessment/submission/components/answers/ForumPostResponse/ForumPostSelectDialog.jsx:197-203 | two ascending lists with the same elements are equal, so comparing sorted lists compares multisets |
| `IdSort.SortedEqualIffSameIds` | client/app/bundles/course/assessment/submission/components/answers/ForumPostResponse/ForumPostSelectDialog.jsx:197-203 | two id lists sort to the same list iff they hold the same ids the same number of times |
| `ForumPostSelect.HasNoChanges` | client/app/bundles/course/assessment/submission/components/answers/ForumPostResponse/ForumPostSelectDialog.jsx:196-203 | the sorted id lists are equal iff the draft and the initial list hold the same ids the same number of times, in any order |
| `ForumPostSelect.IdSet` | client/app/bundles/course/assessment/submission/components/answers/ForumPostResponse/ForumPostSelectDialog.jsx:124-126 | the id set holds exactly the ids of the list |
| `ForumPostSelect.SomePostIn` | client/app/bundles/course/assessment/submission/components/answers/ForumPostResponse/ForumPostSelectDialog.jsx:128-130 | true iff some post of the topic has an id in the set |
| `ForumPostSelect.SomeTopicIn` | client/app/bundles/course/assessment/submission/components/answers/ForumPostResponse/ForumPostSelectDialog.jsx:127-131 | true iff some post of some topic has an id in the set |
| `ForumPostSelect.ExpandedOnFirstLoad` | client/app/bundles/course/assessment/submission/components/answers/ForumPostResponse/ForumPostSelectDialog.jsx:123-132 | a forum card starts expanded iff some post of some topic of it has an id in the given selection |
| `ForumPostSelect.ForumPostSelectDialog.constructor` | client/app/bundles/course/assessment/submission/components/answers/ForumPostResponse/ForumPostSelectDialog.jsx:80-88 | the draft starts equal to the parent's list; no callback has been called |
| `ForumPostSelect.ForumPostSelectDialog.ComponentDidUpdate` | client/app/bundles/course/assessment/submission/components/answers/ForumPostResponse/ForumPostSelectDialog.jsx:91-99 | the draft is reset to the parent's new list exactly when its length differs from the previous list's; otherwise it is kept |
| `ForumPostSelect.ForumPostSelectDialog.OnSelectPostPack` | client/app/bundles/course/assessment/submission/components/answers/ForumPostResponse/ForumPostSelectDialog.jsx:101-120 | the draft becomes `SelectPostPack`'s draft; exactly one notification is logged when the add is refused, none otherwise; the cap invariant is preserved; the parent's list is untouched |
| `ForumPostSelect.ForumPostSelectDialog.IsForumExpandedOnFirstLoad` | client/app/bundles/course/assessment/submission/components/answers/ForumPostResponse/ForumPostSelectDialog.jsx:123-132 | judged against the parent's list, not the draft: true iff some post of the forum is in it |
| `ForumPostSelect.ForumPostSelectDialog.ConfirmDisabled` | client/app/bundles/course/assessment/submission/components/answers/ForumPostResponse/ForumPostSelectDialog.jsx:196-222 | the confirm button is disabled iff the draft and the parent's list hold the same multiset of ids |
| `ForumPostSelect.ForumPostSelectDialog.SaveChanges` | client/app/bundles/course/assessment/submission/components/answers/ForumPostResponse/ForumPostSelectDialog.jsx:134-137 | the parent receives the current draft unchanged, then the dialog is hidden; nothing else changes |
| `ForumPostSelect.ForumPostSelectDialog.Cancel` | client/app/bundles/course/assessment/submission/components/answers/ForumPostResponse/ForumPostSelectDialog.jsx:205-211 | the dialog is hidden without the parent's list being updated; the draft is kept |
| `SubmissionsIndex.FormatGrade` | client/app/bundles/course/assessment/submission/pages/SubmissionsIndex/SubmissionsTableRow.jsx:64-66 | a null grade formats to null, any other to its one-decimal form |
| `SubmissionsIndex.GetGradeString` | client/app/bundles/course/assessment/submission/pages/SubmissionsIndex/SubmissionsTableRow.jsx:118-132 | nothing for Unstarted; `-- / max` exactly for Attempting and Submitted; `grade / max` for Graded, where a null grade or maximum reads as null |
| `SubmissionsIndex.DisableButtons` | client/app/bundles/course/assessment/submission/pages/SubmissionsIndex/SubmissionsTableRow.jsx:134-149 | buttons are enabled only when none of the five busy flags is set |
| `SubmissionsIndex.DeleteButton` | client/app/bundles/course/assessment/submission/pages/SubmissionsIndex/SubmissionsTableRow.jsx:151-173 | hidden iff the viewer may not delete all submissions and does not own this one; when shown, enabled iff nothing is busy and the submission is started |
| `SubmissionsIndex.UnsubmitButton` | client/app/bundles/course/assessment/submission/pages/SubmissionsIndex/SubmissionsTableRow.jsx:245-266 | hidden iff the viewer may not unsubmit; when shown, enabled iff nothing is busy and the submission is Submitted or Graded |
| `SubmissionsIndex.SubmissionLogsLinkShown` | client/app/bundles/course/assessment/submission/pages/SubmissionsIndex/SubmissionsTableRow.jsx:203-222 | shown iff the assessment is password-protected, the viewer may view logs and the submission id is truthy (present and non-zero) |
| `SubmissionsIndex.UnpublishedWarningShown` | client/app/bundles/course/assessment/submission/pages/SubmissionsIndex/SubmissionsTableRow.jsx:84-93 | the unpublished-grade warning appears iff the submission is Graded |
| `SubmissionsIndex.SubmissionWorkflowState` | client/app/bundles/course/assessment/submission/pages/SubmissionsIndex/SubmissionsTableRow.jsx:224-243 | plain text iff Unstarted; otherwise an edit link for the state, with the warning iff Graded |
| `SubmissionsIndex.AllowedActions` | client/app/bundles/course/assessment/submission/pages/SubmissionsIndex/SubmissionsTableRow.jsx:151-253 | the reference policy: Unstarted allows neither delete nor unsubmit; Attempting allows no unsubmit; Submitted and Graded allow unsubmit iff permitted; started submissions may be deleted iff permitted; logs iff permitted |
| `SubmissionsIndex.RowPermissions` | client/app/bundles/course/assessment/submission/pages/SubmissionsIndex/SubmissionsTableRow.jsx:151-211 | the row's permissions: delete for an all-submissions deleter or the owner, unsubmit as the assessment says, logs for a password-protected assessment, a log viewer and a truthy id |
| `SubmissionsIndex.RowControlsFollowPolicy` | client/app/bundles/course/assessment/submission/pages/SubmissionsIndex/SubmissionsTableRow.jsx:151-253 | the delete and unsubmit buttons are shown and enabled exactly when their action is allowed and nothing is busy; they are shown at all exactly when permitted; the logs link appears exactly when viewing logs is allowed |
| `SubmissionsIndex.ShouldComponentUpdate` | client/app/bundles/course/assessment/submission/pages/SubmissionsIndex/SubmissionsTableRow.jsx:103-116 | re-render iff the eight watched fields differ (workflow state, five busy flags, two dialog flags); identical inputs never re-render |
| `SubmissionsIndex.NoUpdateKeepsDecisions` | client/app/bundles/course/assessment/submission/pages/SubmissionsIndex/SubmissionsTableRow.jsx:103-116 | when no re-render happens and the grade, id, owner and assessment are unchanged, every decision of the row is unchanged |
| `SubmissionsIndex.SubmissionsTableRow.constructor` | client/app/bundles/course/assessment/submission/pages/SubmissionsIndex/SubmissionsTableRow.jsx:95-101 | both confirmation dialogs start closed and nothing is dispatched |
| `SubmissionsIndex.SubmissionsTableRow.ReceiveProps` | client/app/bundles/course/assessment/submission/pages/SubmissionsIndex/SubmissionsTableRow.jsx:103-116 | new props are taken, and the row re-renders exactly as `ShouldComponentUpdate` decides |
| `SubmissionsIndex.SubmissionsTableRow.ClickDeleteButton` | client/app/bundles/course/assessment/submission/pages/SubmissionsIndex/SubmissionsTableRow.jsx:163-168 | a click on the shown, enabled delete button opens its dialog; the unsubmit flag is untouched |
| `SubmissionsIndex.SubmissionsTableRow.CancelDeleteDialog` | client/app/bundles/course/assessment/submission/pages/SubmissionsIndex/SubmissionsTableRow.jsx:186-188 | cancel closes the delete dialog and dispatches nothing |
| `SubmissionsIndex.SubmissionsTableRow.ConfirmDeleteDialog` | client/app/bundles/course/assessment/submission/pages/SubmissionsIndex/SubmissionsTableRow.jsx:186-192 | confirming the open delete dialog dispatches exactly one delete of this submission and closes it; the unsubmit flag is untouched |
| `SubmissionsIndex.SubmissionsTableRow.ClickUnsubmitButton` | client/app/bundles/course/assessment/submission/pages/SubmissionsIndex/SubmissionsTableRow.jsx:257-261 | a click on the shown, enabled unsubmit button opens its dialog; the delete flag is untouched |
| `SubmissionsIndex.SubmissionsTableRow.CancelUnsubmitDialog` | client/app/bundles/course/assessment/submission/pages/SubmissionsIndex/SubmissionsTableRow.jsx:280-282 | cancel closes the unsubmit dialog and dispatches nothing |
| `SubmissionsIndex.SubmissionsTableRow.ConfirmUnsubmitDialog` | client/app/bundles/course/assessment/submission/pages/SubmissionsIndex/SubmissionsTableRow.jsx:280-286 | confirming the open unsubmit dialog dispatches exactly one unsubmit of this submission and closes it; the delete flag is untouched |
| `Surveys.FindSurvey` | client/app/bundles/course/surveys/containers/ShowSurvey.jsx:111-112 | undefined iff no survey's id, as a string, equals the requested id; otherwise the first survey that matches |
| `Surveys.LookupSurvey` | client/app/bundles/course/surveys/containers/ShowSurvey.jsx:110-112 | `{}` when the store holds no survey list or an empty one; otherwise a survey is found iff one matches, and it is the first survey in the list whose id matches, as `find` returns |
| `Surveys.EditSurveyInitialValues` | client/app/bundles/course/surveys/containers/ShowSurvey.jsx:60-74 | the form's fields are the survey's plus `start_at` and `end_at`; those two become dates of the survey's values; every other field is carried over unchanged |
| `Surveys.AdminFunctions` | client/app/bundles/course/surveys/containers/ShowSurvey.jsx:88-107 | length is `[canUpdate] + [canDelete]`; the edit entry is present iff the survey may be updated and opens the edit form with its initial values; the delete entry is present iff it may be deleted and asks for confirmation; edit comes before delete |
| `Surveys.RenderAsWritten` | client/app/bundles/course/surveys/containers/ShowSurvey.jsx:109-119 | as written, rendering fails reading `canUpdate` of undefined exactly when the lookup finds nothing; otherwise it shows the looked-up survey with exactly that survey's admin actions: edit iff `canUpdate`, delete iff `canDelete`, edit first |
| `Surveys.MissingSurveyIsUndefined` | client/app/bundles/course/surveys/containers/ShowSurvey.jsx:110-116 | a store holding only survey 1, asked for survey "2", looks up undefined |
| `Surveys.SelectedSurvey` | client/app/bundles/course/surveys/containers/ShowSurvey.jsx:110-112 | the looked-up survey, or `{}` when none is found |
| `Surveys.Render` | client/app/bundles/course/surveys/containers/ShowSurvey.jsx:109-119 | rendering never fails; the admin actions are exactly those of the selected survey (edit iff `canUpdate`, delete iff `canDelete`, edit first); a survey that is not found, or an empty store, gets none |
| `SurveyResponse.RenderSubmissionInfo` | client/app/bundles/course/survey/pages/ResponseShow/index.jsx:93-125 | both date cells read "Not submitted" whenever `submitted_at` is absent, even if `updated_at` is present; otherwise they show the submission and update times; the two cells agree on which case holds |
| `SurveyResponse.RenderBody` | client/app/bundles/course/survey/pages/ResponseShow/index.jsx:50-66 | the body is only the loading indicator iff loading; otherwise it carries the submission info |
| `SurveyResponse.RenderRespondButton` | client/app/bundles/course/survey/pages/ResponseShow/index.jsx:68-91 | shown iff the viewer may modify or submit and the response is not loading |
| `SurveyResponse.RenderUnsubmitButton` | client/app/bundles/course/survey/pages/ResponseShow/index.jsx:127-136 | shown iff the viewer may unsubmit, the response is not loading and `submitted_at` is present |
| `SurveyResponse.Render` | client/app/bundles/course/survey/pages/ResponseShow/index.jsx:138-155 | the description card appears iff there is a description; while loading there is only the loading indicator and neither button; once loaded the body is the submission info of the response; the respond button appears iff the viewer may modify or submit and the page is loaded; the unsubmit button appears iff the viewer may unsubmit, the page is loaded and the response has a submission time, so only beside a shown submission time |

## Findings

| source | as written | input that shows it | evidently intended | confidence | as-written member | corrected member |
|---|---|---|---|---|---|---|
| client/app/bundles/course/surveys/containers/ShowSurvey.jsx:110-116 | when the store's survey list is non-empty but holds no survey with the URL's id, `find` gives `undefined` and `adminFunctions(survey)` reads `survey.canUpdate` of it, a TypeError | `surveys = [{ id: 1 }]`, `surveyId = "2"` | a missing survey is treated like the `{}` already used for an empty store: nothing to administer, no crash | not executed; medium | `Surveys.RenderAsWritten` with `Surveys.MissingSurveyIsUndefined` | `Surveys.Render` |

## Left out

- Rendering, styles, Material-UI components and message texts: only the decisions are modelled, as booleans and small datatypes.
- Date formatting (`moment`, `formatLongDateTime`) and `grade.toFixed(1)`: formatted values are opaque (`Fixed1`, `FormattedDate`). `new Date(...)` on the survey's dates is opaque too (`DateOf`).
- Redux `dispatch`, action creators and the HTTP requests behind delete, unsubmit and fetch. Dispatches are recorded as values in the row's `dispatched` log; the edit and delete handlers of the survey page are values naming what they open.
- The parent components' callbacks are recorded in the dialog's `effects` log. How the parent then changes its props is not modelled, except through `ComponentDidUpdate`.
- The forum card that decides `isSelected` is not part of this model; it is a parameter of a click.
- React's asynchronous `setState` batching: every handler is one atomic step.
- `maxPosts` is fixed for the dialog's lifetime.
- The phantom-user icon, the points and date columns of the submission row, and the dialog's title counts: presentation only.
- `buildInitialValues` for the response form is not part of this model.
- Numbers in survey objects are integers; fractional ids do not occur.
- Per-user read tracking of forum posts, and the server-side workflow transitions of submissions: neither is implemented in the files modelled here.
- `SubmissionsIndex.FormatGrade`: a `grade` or `maximumGrade` key that is missing (`undefined`) is not modelled. `formatGrade` tests only `!== null`, so `undefined.toFixed(1)` would throw a TypeError; the model's `None` stands for JSON `null` only.
- `SubmissionsIndex.SubmissionWorkflowState`: workflow-state strings other than the four compared against are not modelled. The workflow-state constants file is not part of this model. Such a string would take the graded branches of the grade column and controls, without the unpublished-grades warning.
- `IdSort.Sort`: sorts ids numerically, whereas JavaScript's default `sort()` compares their string forms. The sorted list itself can differ from the source's (`[10, 9]` stays `[10, 9]` in the source but becomes `[9, 10]` here); only the verdict of `hasNoChanges`, which compares two sorted lists, is claimed to agree.

=== FILE: forum_post_select.dfy ===
/**
 * Sorting of id lists, as used by the dialog's "has no changes" test, and
 * the fact that makes that test independent of order.
 */
module IdSort {

  predicate Ascending(s: seq<int>) {
    forall i, j :: 0 <= i < j < |s| ==> s[i] <= s[j]
  }

  /** Inserts `x` into a list, before the first element it does not exceed. */
  function Insert(x: int, s: seq<int>): (r: seq<int>)
    ensures |r| == |s| + 1
    ensures multiset(r) == multiset(s) + multiset{x}
  {
    if s == [] then [x]
    else if x <= s[0] then [x] + s
    else
      assert s == [s[0]] + s[1..];
      [s[0]] + Insert(x, s[1..])
  }

  lemma {:induction false} InsertAscending(x: int, s: seq<int>)
    requires Ascending(s)
    ensures Ascending(Insert(x, s))
  {
    if s != [] && x > s[0] {
      assert s == [s[0]] + s[1..];
      var t := Insert(x, s[1..]);
      InsertAscending(x, s[1..]);
      forall k | 0 <= k < |t|
        ensures s[0] <= t[k]
      {
        assert t[k] in multiset(t);
        if t[k] != x {
          assert t[k] in multiset(s[1..]);
        }
      }
      assert Insert(x, s) == [s[0]] + t;
    }
  }

  /** The `sort()` the dialog applies to each id list: a permutation of its input... */
  function Sort(s: seq<int>): (r: seq<int>)
    ensures |r| == |s|
    ensures multiset(r) == multiset(s)
  {
    if s == [] then []
    else
      assert s == [s[0]] + s[1..];
      Insert(s[0], Sort(s[1..]))
  }

  /** ... that is in ascending order. */
  lemma {:induction false} SortAscending(s: seq<int>)
    ensures Ascending(Sort(s))
  {
    if s != [] {
      SortAscending(s[1..]);
      InsertAscending(s[0], Sort(s[1..]));
    }
  }

  /** The multiset of a non-empty list is its head plus the multiset of its tail. */
  lemma HeadAndTail(a: seq<int>)
    requires a != []
    ensures multiset(a[1..]) == multiset(a) - multiset{a[0]}
  {
    assert a == [a[0]] + a[1..];
  }

  /** Two ascending lists holding the same elements are the same list. */
  lemma {:induction false} AscendingUnique(a: seq<int>, b: seq<int>)
    requires Ascending(a) && Ascending(b)
    requires multiset(a) == multiset(b)
    ensures a == b
  {
    if a == [] {
      assert |multiset(b)| == 0;
    } else {
      assert |b| == |a| by {
        assert |multiset(b)| == |multiset(a)|;
      }
      assert a[0] <= b[0] by {
        assert b[0] in multiset(a);
      }
      assert b[0] <= a[0] by {
        assert a[0] in multiset(b);
      }
      HeadAndTail(a);
      HeadAndTail(b);
      AscendingUnique(a[1..], b[1..]);
      assert a == [a[0]] + a[1..];
      assert b == [b[0]] + b[1..];
    }
  }

  /** Two id lists sort to the same list exactly when they hold the same ids the same number of times. */
  lemma SortedEqualIffSameIds(a: seq<int>, b: seq<int>)
    ensures Sort(a) == Sort(b) <==> multiset(a) == multiset(b)
  {
    if multiset(a) == multiset(b) {
      SortAscending(a);
      SortAscending(b);
      AscendingUnique(Sort(a), Sort(b));
    }
  }
}

/**
 * The forum-post selection dialog of a forum-post-response answer: a draft
 * list of selected post packs, capped at `maxPosts`, that the student edits
 * and then hands back to the parent component on confirm.
 */
module ForumPostSelect {

  import opened IdSort

  /** The post itself; only its id takes part in any decision. */
  datatype CorePost = CorePost(id: int, text: string)

  /** A post as shown in the dialog. */
  datatype PostPack = PostPack(corePost: CorePost)

  /** The posts of one topic. */
  datatype TopicPostPack = TopicPostPack(topicId: int, postPacks: seq<PostPack>)

  /** The topics of one forum, each with its posts. */
  datatype ForumTopicPostPack = ForumTopicPostPack(forumId: int, topicPostPacks: seq<TopicPostPack>)

  /** The ids of the posts in `packs`, in order (`packs.map(pack => pack.corePost.id)`). */
  function Ids(packs: seq<PostPack>): (ids: seq<int>)
    ensures |ids| == |packs|
    ensures forall i :: 0 <= i < |packs| ==> ids[i] == packs[i].corePost.id
  {
    seq(|packs|, i requires 0 <= i < |packs| => packs[i].corePost.id)
  }

  // ---------------------------------------------------------------------------
  // Deselecting: removing a post by id
  // ---------------------------------------------------------------------------

  /** `packs.filter(p => p.corePost.id !== id)`. */
  function WithoutPost(packs: seq<PostPack>, id: int): (r: seq<PostPack>)
    ensures |r| <= |packs|
  {
    if packs == [] then []
    else (if packs[0].corePost.id == id then [] else [packs[0]]) + WithoutPost(packs[1..], id)
  }

  /** Every entry with the id is gone; every other entry is kept as often as it occurred. */
  lemma {:induction false} WithoutPostCounts(packs: seq<PostPack>, id: int, x: PostPack)
    ensures multiset(WithoutPost(packs, id))[x] == if x.corePost.id == id then 0 else multiset(packs)[x]
  {
    if packs != [] {
      assert packs == [packs[0]] + packs[1..];
      WithoutPostCounts(packs[1..], id, x);
    }
  }

  /** Filtering works piece by piece, so the entries kept stay in their original order. */
  lemma {:induction false} WithoutPostDistributes(a: seq<PostPack>, b: seq<PostPack>, id: int)
    ensures WithoutPost(a + b, id) == WithoutPost(a, id) + WithoutPost(b, id)
  {
    if a == [] {
      assert a + b == b;
    } else {
      assert (a + b)[0] == a[0];
      assert (a + b)[1..] == a[1..] + b;
      WithoutPostDistributes(a[1..], b, id);
    }
  }

  /** Filtering out an id that no entry carries changes nothing. */
  lemma {:induction false} WithoutAbsentPost(packs: seq<PostPack>, id: int)
    requires id !in Ids(packs)
    ensures WithoutPost(packs, id) == packs
  {
    if packs != [] {
      assert Ids(packs)[0] == packs[0].corePost.id;
      assert Ids(packs[1..]) == Ids(packs)[1..];
      WithoutAbsentPost(packs[1..], id);
    }
  }

  // ---------------------------------------------------------------------------
  // One click on a post card
  // ---------------------------------------------------------------------------

  /** The draft after a click, and whether the "max posts selected" notification was raised. */
  datatype Selection = Selection(draft: seq<PostPack>, notified: bool)

  /**
   * The effect of one click on `postPack`. `isSelected` is whether the card
   * showed the post as selected: if not, the post is appended unless the cap
   * is reached, in which case the draft is unchanged and one notification is
   * raised; if so, every entry with the post's id is filtered out.
   */
  function SelectPostPack(draft: seq<PostPack>, maxPosts: int, postPack: PostPack, isSelected: bool): (r: Selection)
    ensures r.notified <==> !isSelected && |draft| >= maxPosts
    ensures r.notified ==> r.draft == draft
    ensures !isSelected && !r.notified ==>
              |r.draft| == |draft| + 1 && r.draft[..|draft|] == draft && r.draft[|draft|] == postPack
    ensures isSelected ==> r.draft == WithoutPost(draft, postPack.corePost.id)
    // the add path is the only one that grows the draft, and it respects the cap
    ensures |r.draft| > |draft| ==> !isSelected && |draft| < maxPosts
    ensures |draft| <= maxPosts ==> |r.draft| <= maxPosts
  {
    if !isSelected then
      if |draft| >= maxPosts then Selection(draft, true)
      else Selection(draft + [postPack], false)
    else
      Selection(WithoutPost(draft, postPack.corePost.id), false)
  }

  /** Selecting a post that is not in the draft and then deselecting it restores the draft. */
  lemma {:induction false} SelectThenDeselectRestores(draft: seq<PostPack>, maxPosts: int, postPack: PostPack)
    requires postPack.corePost.id !in Ids(draft)
    requires |draft| < maxPosts
    ensures SelectPostPack(SelectPostPack(draft, maxPosts, postPack, false).draft, maxPosts, postPack, true).draft == draft
  {
    var id := postPack.corePost.id;
    WithoutPostDistributes(draft, [postPack], id);
    WithoutAbsentPost(draft, id);
    assert WithoutPost([postPack], id) == [];
  }

  /** Deselecting a post the draft holds makes the draft shorter. */
  lemma {:induction false} WithoutPresentPostShrinks(packs: seq<PostPack>, id: int)
    requires id in Ids(packs)
    ensures |WithoutPost(packs, id)| < |packs|
  {
    var k :| 0 <= k < |packs| && Ids(packs)[k] == id;
    if packs[0].corePost.id != id {
      assert Ids(packs[1..])[k - 1] == id;
      WithoutPresentPostShrinks(packs[1..], id);
    }
  }

  /** The ids of a concatenation are the ids of its parts. */
  lemma IdSetAppend(a: seq<PostPack>, b: seq<PostPack>)
    ensures IdSet(a + b) == IdSet(a) + IdSet(b)
  {
    forall x | x in IdSet(a + b)
      ensures x in IdSet(a) + IdSet(b)
    {
      var k :| 0 <= k < |a + b| && Ids(a + b)[k] == x;
      if k < |a| {
        assert Ids(a)[k] == x;
      } else {
        assert Ids(b)[k - |a|] == x;
      }
    }
    forall x | x in IdSet(a) + IdSet(b)
      ensures x in IdSet(a + b)
    {
      if x in IdSet(a) {
        var k :| 0 <= k < |a| && Ids(a)[k] == x;
        assert Ids(a + b)[k] == x;
      } else {
        var k :| 0 <= k < |b| && Ids(b)[k] == x;
        assert Ids(a + b)[|a| + k] == x;
      }
    }
  }

  /** Deselecting removes exactly the post's id from the set of selected ids. */
  lemma {:induction false} WithoutPostIdSet(packs: seq<PostPack>, id: int)
    ensures IdSet(WithoutPost(packs, id)) == IdSet(packs) - {id}
  {
    if packs != [] {
      var head := if packs[0].corePost.id == id then [] else [packs[0]];
      WithoutPostIdSet(packs[1..], id);
      IdSetAppend(head, WithoutPost(packs[1..], id));
      assert packs == [packs[0]] + packs[1..];
      IdSetAppend([packs[0]], packs[1..]);
      assert IdSet([packs[0]]) == {packs[0].corePost.id} by {
        assert Ids([packs[0]])[0] == packs[0].corePost.id;
      }
    }
  }

  /** Taking every entry with a held id out and appending one entry with that id keeps the set of ids. */
  lemma ReplaceKeepsIdSet(draft: seq<PostPack>, postPack: PostPack)
    requires postPack.corePost.id in Ids(draft)
    ensures IdSet(WithoutPost(draft, postPack.corePost.id) + [postPack]) == IdSet(draft)
  {
    var id := postPack.corePost.id;
    WithoutPostIdSet(draft, id);
    IdSetAppend(WithoutPost(draft, id), [postPack]);
    assert IdSet([postPack]) == {id} by {
      assert Ids([postPack])[0] == id;
    }
  }

  /**
   * Deselecting a post the draft holds and then selecting it again raises no
   * notification and restores the set of selected ids; the post moves to the
   * end, and several entries with its id collapse to one.
   */
  lemma DeselectThenSelect(draft: seq<PostPack>, maxPosts: int, postPack: PostPack)
    requires postPack.corePost.id in Ids(draft)
    requires |draft| <= maxPosts
    ensures !SelectPostPack(draft, maxPosts, postPack, true).notified
    ensures !SelectPostPack(SelectPostPack(draft, maxPosts, postPack, true).draft, maxPosts, postPack, false).notified
    ensures SelectPostPack(SelectPostPack(draft, maxPosts, postPack, true).draft, maxPosts, postPack, false).draft
            == WithoutPost(draft, postPack.corePost.id) + [postPack]
    ensures IdSet(SelectPostPack(SelectPostPack(draft, maxPosts, postPack, true).draft, maxPosts, postPack, false).draft)
            == IdSet(draft)
  {
    var removed := WithoutPost(draft, postPack.corePost.id);
    WithoutPresentPostShrinks(draft, postPack.corePost.id);
    assert SelectPostPack(draft, maxPosts, postPack, true) == Selection(removed, false);
    assert SelectPostPack(removed, maxPosts, postPack, false) == Selection(removed + [postPack], false);
    ReplaceKeepsIdSet(draft, postPack);
  }

  /**
   * The worked scenario of the selection buffer: with a cap of 2 and draft
   * [A], selecting B gives [A, B]; selecting C then is refused with a
   * notification; deselecting A then gives [B].
   */
  lemma SelectionScenario(a: PostPack, b: PostPack, c: PostPack)
    requires a.corePost.id != b.corePost.id
    ensures SelectPostPack([a], 2, b, false) == Selection([a, b], false)
    ensures SelectPostPack([a, b], 2, c, false) == Selection([a, b], true)
    ensures SelectPostPack([a, b], 2, a, true) == Selection([b], false)
  {
    assert [a, b] == [a] + [b];
    WithoutPostDistributes([a], [b], a.corePost.id);
    assert WithoutPost([a], a.corePost.id) == [];
    assert WithoutPost([b], a.corePost.id) == [b];
  }

  // ---------------------------------------------------------------------------
  // hasNoChanges: compare the sorted id lists
  // ---------------------------------------------------------------------------

  /**
   * `hasNoChanges`: the draft's ids, sorted, equal the initial ids, sorted. It
   * holds exactly when both lists carry the same ids the same number of
   * times, whatever their order.
   */
  function HasNoChanges(draft: seq<PostPack>, initial: seq<PostPack>): (r: bool)
    ensures r <==> multiset(Ids(draft)) == multiset(Ids(initial))
  {
    SortedEqualIffSameIds(Ids(draft), Ids(initial));
    Sort(Ids(draft)) == Sort(Ids(initial))
  }

  // ---------------------------------------------------------------------------
  // isForumExpandedOnFirstLoad
  // ---------------------------------------------------------------------------

  /** `new Set(packs.map(pack => pack.corePost.id))`. */
  function IdSet(packs: seq<PostPack>): (ids: set<int>)
    ensures forall id :: id in ids <==> id in Ids(packs)
  {
    set i | 0 <= i < |packs| :: packs[i].corePost.id
  }

  /** `postPacks.some(postPack => ids.has(postPack.corePost.id))`. */
  function SomePostIn(postPacks: seq<PostPack>, ids: set<int>): (r: bool)
    ensures r <==> exists j :: 0 <= j < |postPacks| && postPacks[j].corePost.id in ids
  {
    if postPacks == [] then false
    else postPacks[0].corePost.id in ids || SomePostIn(postPacks[1..], ids)
  }

  /** `topicPostPacks.some(topicPostPack => SomePostIn(topicPostPack.postPacks, ids))`. */
  function SomeTopicIn(topicPostPacks: seq<TopicPostPack>, ids: set<int>): (r: bool)
    ensures r <==> exists i, j :: 0 <= i < |topicPostPacks| && 0 <= j < |topicPostPacks[i].postPacks|
                                  && topicPostPacks[i].postPacks[j].corePost.id in ids
  {
    if topicPostPacks == [] then false
    else
      var here := SomePostIn(topicPostPacks[0].postPacks, ids);
      var rest := SomeTopicIn(topicPostPacks[1..], ids);
      assert rest ==> exists i, j :: 0 <= i < |topicPostPacks| && 0 <= j < |topicPostPacks[i].postPacks|
                                     && topicPostPacks[i].postPacks[j].corePost.id in ids by {
        if rest {
          var i, j :| 0 <= i < |topicPostPacks[1..]| && 0 <= j < |topicPostPacks[1..][i].postPacks|
                      && topicPostPacks[1..][i].postPacks[j].corePost.id in ids;
          assert topicPostPacks[i + 1] == topicPostPacks[1..][i];
        }
      }
      here || rest
  }

  /**
   * Whether a forum card starts expanded: some post of some topic of the
   * forum is among `selected` (the parent's list, not the draft).
   */
  function ExpandedOnFirstLoad(selected: seq<PostPack>, forum: ForumTopicPostPack): (r: bool)
    ensures r <==> exists i, j :: 0 <= i < |forum.topicPostPacks| && 0 <= j < |forum.topicPostPacks[i].postPacks|
                                  && forum.topicPostPacks[i].postPacks[j].corePost.id in Ids(selected)
  {
    SomeTopicIn(forum.topicPostPacks, IdSet(selected))
  }

  // ---------------------------------------------------------------------------
  // The dialog component
  // ---------------------------------------------------------------------------

  /** A call the dialog makes to one of its parent's callbacks. */
  datatype Effect =
    | NotifyMaxPostsSelected                              // handleNotificationMessage(maxPostsSelected)
    | UpdateSelectedPostPacks(postPacks: seq<PostPack>)   // updateSelectedPostPacks(postPacks)
    | SetIsVisible(visible: bool)                         // setIsVisible(visible)

  class ForumPostSelectDialog {
    /** props.selectedPostPacks: the parent's committed selection. */
    var propsSelectedPostPacks: seq<PostPack>
    /** props.maxPosts */
    const maxPosts: int
    /** state.selectedPostPacks: the draft edited by the dialog. */
    var selectedPostPacks: seq<PostPack>
    /** Every call made to the parent's callbacks, oldest first. */
    var effects: seq<Effect>

    /** The cap on the draft. */
    ghost predicate WithinCap()
      reads this
    {
      |selectedPostPacks| <= maxPosts
    }

    /** The draft starts as the parent's list. */
    constructor (selected: seq<PostPack>, maxPosts: int)
      ensures propsSelectedPostPacks == selected && this.maxPosts == maxPosts
      ensures selectedPostPacks == selected
      ensures effects == []
    {
      propsSelectedPostPacks := selected;
      this.maxPosts := maxPosts;
      selectedPostPacks := selected;
      effects := [];
    }

    /**
     * The parent re-renders with a new `selectedPostPacks`; the draft is
     * reset to it exactly when its length differs from the previous one.
     */
    method ComponentDidUpdate(nextSelected: seq<PostPack>)
      modifies this
      ensures propsSelectedPostPacks == nextSelected
      ensures selectedPostPacks ==
                if |old(propsSelectedPostPacks)| != |nextSelected| then nextSelected else old(selectedPostPacks)
      ensures effects == old(effects)
    {
      var prevSelected := propsSelectedPostPacks;
      propsSelectedPostPacks := nextSelected;
      if |prevSelected| != |nextSelected| {
        selectedPostPacks := nextSelected;
      }
    }

    /** A click on a post card. */
    method OnSelectPostPack(postPack: PostPack, isSelected: bool)
      modifies this
      ensures selectedPostPacks == SelectPostPack(old(selectedPostPacks), maxPosts, postPack, isSelected).draft
      ensures effects == old(effects) +
                if SelectPostPack(old(selectedPostPacks), maxPosts, postPack, isSelected).notified
                then [NotifyMaxPostsSelected] else []
      ensures old(WithinCap()) ==> WithinCap()
      ensures propsSelectedPostPacks == old(propsSelectedPostPacks)
    {
      var postPacks := selectedPostPacks;
      if !isSelected {
        if |postPacks| >= maxPosts {
          effects := effects + [NotifyMaxPostsSelected];
        } else {
          selectedPostPacks := selectedPostPacks + [postPack];
        }
      } else {
        selectedPostPacks := WithoutPost(postPacks, postPack.corePost.id);
      }
    }

    /** Whether a forum card starts expanded, judged against the parent's list. */
    function IsForumExpandedOnFirstLoad(forum: ForumTopicPostPack): (r: bool)
      reads this
      ensures r <==> exists i, j :: 0 <= i < |forum.topicPostPacks| && 0 <= j < |forum.topicPostPacks[i].postPacks|
                                    && forum.topicPostPacks[i].postPacks[j].corePost.id in Ids(propsSelectedPostPacks)
    {
      ExpandedOnFirstLoad(propsSelectedPostPacks, forum)
    }

    /** Whether the confirm button is disabled: the draft holds the same ids as the parent's list. */
    function ConfirmDisabled(): (r: bool)
      reads this
      ensures r <==> multiset(Ids(selectedPostPacks)) == multiset(Ids(propsSelectedPostPacks))
    {
      HasNoChanges(selectedPostPacks, propsSelectedPostPacks)
    }

    /** Confirm: hand the draft, as it is, to the parent, then hide the dialog. */
    method SaveChanges()
      modifies this`effects
      ensures effects == old(effects) + [UpdateSelectedPostPacks(selectedPostPacks), SetIsVisible(false)]
    {
      effects := effects + [UpdateSelectedPostPacks(selectedPostPacks)];
      effects := effects + [SetIsVisible(false)];
    }

    /** Cancel (or a click outside the dialog): hide it; the parent's list is not updated. */
    method Cancel()
      modifies this`effects
      ensures effects == old(effects) + [SetIsVisible(false)]
    {
      effects := effects + [SetIsVisible(false)];
    }
  }
}

=== FILE: response_show.dfy ===
/**
 * The page showing one survey response: while the response loads only a
 * loading indicator is shown; then the submission info and the read-only
 * answers, with a respond button and an unsubmit button each shown when the
 * viewer's flags allow it.
 */
module SurveyResponse {

  import opened Wrappers

  /** What the viewer may do with the response, and whether it is still loading. */
  datatype Flags = Flags(canUnsubmit: bool, isLoading: bool, canModify: bool, canSubmit: bool)

  /** A date-time string as the server sends it. */
  type Timestamp = string

  datatype Response = Response(
    id: int,
    creatorName: string,
    submittedAt: Option<Timestamp>,
    updatedAt: Option<Timestamp>)

  datatype Survey = Survey(id: int, description: Option<string>)

  /** JavaScript truthiness of a nullable string: null and "" are false. */
  predicate Present(t: Option<string>) {
    t.Some? && t.value != ""
  }

  /** A cell of the submission-info table: the placeholder, or a formatted date (the formatting is opaque). */
  datatype Cell = NotSubmitted | FormattedDate(of: Option<Timestamp>)

  datatype SubmissionInfo = SubmissionInfo(student: string, submittedAt: Cell, lastUpdatedAt: Cell)

  /** The page body: the loading indicator, or the submission info followed by the read-only answers. */
  datatype Body = LoadingIndicator | ResponseDetails(info: SubmissionInfo)

  datatype Page = Page(descriptionCard: bool, body: Body, respondButton: bool, unsubmitButton: bool)

  /**
   * The submission-info table: both date cells read "Not submitted" until the
   * response is submitted, even when it has been updated; afterwards they
   * show the submission and last-update times.
   */
  function RenderSubmissionInfo(response: Response): (info: SubmissionInfo)
    ensures info.student == response.creatorName
    ensures !Present(response.submittedAt) ==> info.submittedAt == NotSubmitted && info.lastUpdatedAt == NotSubmitted
    ensures Present(response.submittedAt) ==>
              info.submittedAt == FormattedDate(response.submittedAt)
              && info.lastUpdatedAt == FormattedDate(response.updatedAt)
    ensures info.submittedAt.NotSubmitted? <==> info.lastUpdatedAt.NotSubmitted?
  {
    SubmissionInfo(
      response.creatorName,
      if Present(response.submittedAt) then FormattedDate(response.submittedAt) else NotSubmitted,
      if Present(response.submittedAt) then FormattedDate(response.updatedAt) else NotSubmitted)
  }

  /** The body: only the loading indicator while loading. */
  function RenderBody(response: Response, flags: Flags): (b: Body)
    ensures b.LoadingIndicator? <==> flags.isLoading
    ensures b.ResponseDetails? ==> b.info == RenderSubmissionInfo(response)
  {
    if flags.isLoading then LoadingIndicator
    else ResponseDetails(RenderSubmissionInfo(response))
  }

  /** The respond button: for a viewer who may modify or submit, once loaded. */
  function RenderRespondButton(flags: Flags): (shown: bool)
    ensures shown <==> (flags.canModify || flags.canSubmit) && !flags.isLoading
  {
    (flags.canModify || flags.canSubmit) && !flags.isLoading
  }

  /** The unsubmit button: for a viewer who may unsubmit, once loaded, and only for a submitted response. */
  function RenderUnsubmitButton(response: Response, flags: Flags): (shown: bool)
    ensures shown <==> flags.canUnsubmit && !flags.isLoading && Present(response.submittedAt)
  {
    flags.canUnsubmit && !flags.isLoading && Present(response.submittedAt)
  }

  /**
   * The whole page. While loading it shows the loading indicator and no
   * button; an unsubmit button only ever appears beside a submission time.
   */
  function Render(survey: Survey, response: Response, flags: Flags): (page: Page)
    ensures page.descriptionCard <==> Present(survey.description)
    ensures flags.isLoading ==> page.body == LoadingIndicator && !page.respondButton && !page.unsubmitButton
    ensures !flags.isLoading ==> page.body == ResponseDetails(RenderSubmissionInfo(response))
    ensures page.respondButton <==> (flags.canModify || flags.canSubmit) && !flags.isLoading
    ensures page.unsubmitButton <==> flags.canUnsubmit && !flags.isLoading && Present(response.submittedAt)
    ensures page.unsubmitButton ==>
              page.body.ResponseDetails? && page.body.info.submittedAt == FormattedDate(response.submittedAt)
  {
    Page(
      Present(survey.description),
      RenderBody(response, flags),
      RenderRespondButton(flags),
      RenderUnsubmitButton(response, flags))
  }
}

=== FILE: show_survey.dfy ===
/**
 * The survey page's container: it picks the survey to show from the store's
 * list by the id in the URL, and builds the list of admin actions (edit,
 * delete) the viewer may use on it.
 */
module Surveys {

  import opened Wrappers

  /** A JSON value as the store holds it (numbers are the integer ids and flags that matter here). */
  datatype JsValue = Undefined | Null | Bool(b: bool) | Num(n: int) | Str(s: string)

  /** A survey object: its fields by name. */
  type Survey = map<string, JsValue>

  /** `survey[name]`, `undefined` when the field is absent. */
  function Field(survey: Survey, name: string): (v: JsValue)
    ensures name !in survey ==> v == Undefined
  {
    if name in survey then survey[name] else Undefined
  }

  /** JavaScript truthiness. */
  predicate Truthy(v: JsValue) {
    match v
    case Undefined => false
    case Null => false
    case Bool(b) => b
    case Num(n) => n != 0
    case Str(s) => s != ""
  }

  function DigitChar(d: nat): (c: char)
    requires d < 10
    ensures '0' <= c <= '9'
  {
    "0123456789"[d]
  }

  /** The decimal digits of a natural number. */
  function NatString(n: nat): (s: string)
    ensures |s| >= 1
    ensures forall i :: 0 <= i < |s| ==> '0' <= s[i] <= '9'
    decreases n
  {
    if n < 10 then [DigitChar(n)] else NatString(n / 10) + [DigitChar(n % 10)]
  }

  /** `String(v)` for the values an id can take. */
  function ToString(v: JsValue): string {
    match v
    case Undefined => "undefined"
    case Null => "null"
    case Bool(b) => if b then "true" else "false"
    case Num(n) => if n < 0 then "-" + NatString(-n) else NatString(n)
    case Str(s) => s
  }

  /** Whether a survey's id, as a string, is `surveyId`. */
  predicate HasId(survey: Survey, surveyId: string) {
    ToString(Field(survey, "id")) == surveyId
  }

  /** `surveys.find(s => String(s.id) === String(surveyId))`: the first match, or `undefined`. */
  function FindSurvey(surveys: seq<Survey>, surveyId: string): (r: Option<Survey>)
    ensures r.None? <==> forall i :: 0 <= i < |surveys| ==> !HasId(surveys[i], surveyId)
    ensures r.Some? ==> exists i :: 0 <= i < |surveys| && surveys[i] == r.value && HasId(surveys[i], surveyId)
                                    && forall j :: 0 <= j < i ==> !HasId(surveys[j], surveyId)
  {
    if surveys == [] then None
    else if HasId(surveys[0], surveyId) then Some(surveys[0])
    else
      var r := FindSurvey(surveys[1..], surveyId);
      assert r.Some? ==> exists i :: 0 <= i < |surveys| && surveys[i] == r.value && HasId(surveys[i], surveyId)
                                     && forall j :: 0 <= j < i ==> !HasId(surveys[j], surveyId) by {
        if r.Some? {
          var i :| 0 <= i < |surveys[1..]| && surveys[1..][i] == r.value && HasId(surveys[1..][i], surveyId)
                   && forall j :: 0 <= j < i ==> !HasId(surveys[1..][j], surveyId);
          assert forall j :: 0 < j <= i ==> surveys[j] == surveys[1..][j - 1];
        }
      }
      r
  }

  /**
   * The survey `render` shows: `{}` when the store holds no surveys (or no
   * list at all), otherwise the first one whose id matches, or `undefined`.
   */
  function LookupSurvey(surveys: Option<seq<Survey>>, surveyId: string): (r: Option<Survey>)
    ensures surveys.None? || surveys.value == [] ==> r == Some(map[])
    ensures surveys.Some? && surveys.value != [] ==>
              (r.Some? <==> exists i :: 0 <= i < |surveys.value| && HasId(surveys.value[i], surveyId))
    ensures surveys.Some? && surveys.value != [] && r.Some? ==>
              exists i :: 0 <= i < |surveys.value| && surveys.value[i] == r.value && HasId(surveys.value[i], surveyId)
                          && forall j :: 0 <= j < i ==> !HasId(surveys.value[j], surveyId)
  {
    if surveys.Some? && |surveys.value| > 0 then FindSurvey(surveys.value, surveyId) else Some(map[])
  }

  // ---------------------------------------------------------------------------
  // The edit form and the admin actions
  // ---------------------------------------------------------------------------

  /** A form value: a field carried over as it is, or a `new Date(...)` made from one (the date itself is opaque). */
  datatype FormValue = Plain(v: JsValue) | DateOf(source: JsValue)

  /**
   * The edit form's initial values: `start_at` and `end_at` become dates, and
   * every other field of the survey is carried over unchanged.
   */
  function EditSurveyInitialValues(survey: Survey): (initialValues: map<string, FormValue>)
    ensures initialValues.Keys == survey.Keys + {"start_at", "end_at"}
    ensures initialValues["start_at"] == DateOf(Field(survey, "start_at"))
    ensures initialValues["end_at"] == DateOf(Field(survey, "end_at"))
    ensures forall k :: k in survey && k != "start_at" && k != "end_at" ==> initialValues[k] == Plain(survey[k])
  {
    var surveyFields := map k | k in survey && k != "start_at" && k != "end_at" :: Plain(survey[k]);
    map["start_at" := DateOf(Field(survey, "start_at")), "end_at" := DateOf(Field(survey, "end_at"))] + surveyFields
  }

  datatype Label = EditSurveyLabel | DeleteSurveyLabel

  /** What an admin action does when chosen. */
  datatype Handler =
    | ShowSurveyForm(initialValues: map<string, FormValue>)   // open the edit form
    | ShowDeleteConfirmation                                 // ask before deleting

  datatype AdminFunction = AdminFunction(title: Label, handler: Handler)

  predicate CanUpdate(survey: Survey) {
    Truthy(Field(survey, "canUpdate"))
  }

  predicate CanDelete(survey: Survey) {
    Truthy(Field(survey, "canDelete"))
  }

  /**
   * What `adminFunctions` promises for a survey: an edit action iff the survey
   * may be updated, a delete action iff it may be deleted, nothing else, edit
   * before delete, and the handler that belongs to each.
   */
  predicate IsAdminFunctionsOf(survey: Survey, functions: seq<AdminFunction>) {
    && |functions| == (if CanUpdate(survey) then 1 else 0) + (if CanDelete(survey) then 1 else 0)
    && ((exists i :: 0 <= i < |functions| && functions[i].title == EditSurveyLabel) <==> CanUpdate(survey))
    && ((exists i :: 0 <= i < |functions| && functions[i].title == DeleteSurveyLabel) <==> CanDelete(survey))
    && (forall i, j :: (0 <= i < |functions| && 0 <= j < |functions|
                        && functions[i].title == EditSurveyLabel && functions[j].title == DeleteSurveyLabel) ==> i < j)
    && (forall i :: 0 <= i < |functions| && functions[i].title == EditSurveyLabel ==>
                      functions[i].handler == ShowSurveyForm(EditSurveyInitialValues(survey)))
    && (forall i :: 0 <= i < |functions| && functions[i].title == DeleteSurveyLabel ==>
                      functions[i].handler == ShowDeleteConfirmation)
  }

  /**
   * `adminFunctions`: edit (when the survey may be updated) and then delete
   * (when it may be deleted), so at most two entries, edit first.
   */
  method AdminFunctions(survey: Survey) returns (functions: seq<AdminFunction>)
    ensures IsAdminFunctionsOf(survey, functions)
  {
    functions := [];
    if CanUpdate(survey) {
      functions := functions + [AdminFunction(EditSurveyLabel, ShowSurveyForm(EditSurveyInitialValues(survey)))];
      assert functions[0].title == EditSurveyLabel;
    }
    if CanDelete(survey) {
      functions := functions + [AdminFunction(DeleteSurveyLabel, ShowDeleteConfirmation)];
      assert functions[|functions| - 1].title == DeleteSurveyLabel;
      assert CanUpdate(survey) ==> functions[0].title == EditSurveyLabel;
    }
  }

  // ---------------------------------------------------------------------------
  // render
  // ---------------------------------------------------------------------------

  /** Reading a property of `undefined`. */
  datatype TypeError = ReadPropertyOfUndefined(property: string)

  /** What `render` hands to the survey details view. */
  datatype SurveyDetailsProps = SurveyDetailsProps(survey: Option<Survey>, adminFunctions: seq<AdminFunction>)

  /**
   * `render` as written: when the store holds surveys but none has the id,
   * the lookup gives `undefined` and building the admin actions reads
   * `canUpdate` of it.
   */
  method RenderAsWritten(surveys: Option<seq<Survey>>, surveyId: string)
    returns (r: Result<SurveyDetailsProps, TypeError>)
    ensures r.Failure? <==> LookupSurvey(surveys, surveyId).None?
    ensures r.Failure? ==> r.error == ReadPropertyOfUndefined("canUpdate")
    ensures r.Success? ==> r.value.survey == LookupSurvey(surveys, surveyId)
    ensures r.Success? ==> r.value.survey.Some?
                           && IsAdminFunctionsOf(r.value.survey.value, r.value.adminFunctions)
  {
    var survey := LookupSurvey(surveys, surveyId);
    if survey.None? {
      return Failure(ReadPropertyOfUndefined("canUpdate"));
    }
    var functions := AdminFunctions(survey.value);
    r := Success(SurveyDetailsProps(survey, functions));
  }

  /** A store holding survey 1 only, asked for survey "2": the lookup gives `undefined`. */
  lemma MissingSurveyIsUndefined()
    ensures LookupSurvey(Some([map["id" := Num(1)]]), "2").None?
  {
  }

  /** The survey to show, with a missing one read as `{}` like an empty store. */
  function SelectedSurvey(surveys: Option<seq<Survey>>, surveyId: string): (survey: Survey)
    ensures LookupSurvey(surveys, surveyId).Some? ==> survey == LookupSurvey(surveys, surveyId).value
    ensures LookupSurvey(surveys, surveyId).None? ==> survey == map[]
  {
    match LookupSurvey(surveys, surveyId)
    case Some(s) => s
    case None => map[]
  }

  /**
   * `render` with a missing survey read as `{}`: it never fails, and no admin
   * action is offered for a survey the store does not hold.
   */
  method Render(surveys: Option<seq<Survey>>, surveyId: string) returns (r: SurveyDetailsProps)
    ensures r.survey == Some(SelectedSurvey(surveys, surveyId))
    ensures IsAdminFunctionsOf(SelectedSurvey(surveys, surveyId), r.adminFunctions)
    ensures LookupSurvey(surveys, surveyId).None? ==> r.adminFunctions == []
    ensures surveys.None? || surveys.value == [] ==> r.adminFunctions == []
  {
    var survey := SelectedSurvey(surveys, surveyId);
    var functions := AdminFunctions(survey);
    r := SurveyDetailsProps(Some(survey), functions);
  }
}

=== FILE: submissions_table_row.dfy ===
/**
 * One row of an assessment's submissions table: what the grade column
 * shows, which action controls appear and whether they are enabled, when
 * the row re-renders, and the two confirmation dialogs (delete, unsubmit).
 */
module SubmissionsIndex {

  import opened Wrappers

  /** The lifecycle stage of a student's submission: the four workflow-state strings the row compares against. */
  datatype WorkflowState = Unstarted | Attempting | Submitted | Graded

  datatype CourseUser = CourseUser(id: int, name: string, isCurrentUser: bool, phantom: bool)

  /** A submission; `id` and `grade` may be JSON `null` (None). A missing key (`undefined`) is not represented. */
  datatype Submission = Submission(
    id: Option<int>,
    workflowState: WorkflowState,
    grade: Option<real>,
    courseUser: CourseUser)

  /** The assessment's maximum grade (None is JSON `null`) and the viewer's permissions on it. */
  datatype Assessment = Assessment(
    maximumGrade: Option<real>,
    canDeleteAllSubmissions: bool,
    canUnsubmitSubmission: bool,
    passwordProtected: bool,
    canViewLogs: bool)

  /** The page-wide operations in progress. */
  datatype BusyFlags = BusyFlags(
    isDownloadingFiles: bool,
    isDownloadingCsv: bool,
    isStatisticsDownloading: bool,
    isUnsubmitting: bool,
    isDeleting: bool)

  /** No operation in progress. */
  const Idle := BusyFlags(false, false, false, false, false)

  /** The row's props. */
  datatype RowProps = RowProps(submission: Submission, assessment: Assessment, busy: BusyFlags)

  /** The row's own state: which confirmation dialog is open. */
  datatype RowState = RowState(unsubmitConfirmation: bool, deleteConfirmation: bool)

  /** A control in the row: not rendered, or rendered enabled or disabled. */
  datatype Control = Hidden | Shown(enabled: bool)

  // ---------------------------------------------------------------------------
  // The grade column
  // ---------------------------------------------------------------------------

  /** `formatGrade`: `null`, or the grade with one decimal (the formatting itself is opaque). */
  datatype GradeText = NullText | Fixed1(value: real)

  /** The part before the slash: `--`, or a formatted grade. */
  datatype GradePart = Dashes | Formatted(text: GradeText)

  /** `"<grade> / <maximum>"` */
  datatype GradeString = GradeString(grade: GradePart, maximum: GradeText)

  function FormatGrade(grade: Option<real>): (t: GradeText)
    ensures t.NullText? <==> grade.None?
    ensures t.Fixed1? ==> t.value == grade.value
  {
    match grade
    case None => NullText
    case Some(g) => Fixed1(g)
  }

  /**
   * The grade column: nothing for an unstarted submission, `-- / max` while
   * attempting or submitted, and the grade over the maximum once graded.
   */
  function GetGradeString(submission: Submission, assessment: Assessment): (r: Option<GradeString>)
    ensures r.None? <==> submission.workflowState == Unstarted
    ensures r.Some? ==> r.value.maximum == FormatGrade(assessment.maximumGrade)
    ensures r.Some? ==> (r.value.grade == Dashes <==> submission.workflowState in {Attempting, Submitted})
    ensures r.Some? && submission.workflowState == Graded ==> r.value.grade == Formatted(FormatGrade(submission.grade))
  {
    if submission.workflowState == Unstarted then None
    else
      var gradeString :=
        if submission.workflowState == Attempting || submission.workflowState == Submitted
        then Dashes
        else Formatted(FormatGrade(submission.grade));
      Some(GradeString(gradeString, FormatGrade(assessment.maximumGrade)))
  }

  // ---------------------------------------------------------------------------
  // The action controls
  // ---------------------------------------------------------------------------

  /** Buttons are disabled while any page-wide operation is in progress. */
  function DisableButtons(busy: BusyFlags): (r: bool)
    ensures !r <==> busy == Idle
  {
    busy.isStatisticsDownloading || busy.isDownloadingFiles || busy.isDownloadingCsv
    || busy.isDeleting || busy.isUnsubmitting
  }

  /**
   * The delete button: shown to a viewer who may delete all submissions or
   * who owns the submission; enabled once the submission is started and
   * nothing is in progress.
   */
  function DeleteButton(props: RowProps): (c: Control)
    ensures c.Hidden? <==> !props.assessment.canDeleteAllSubmissions && !props.submission.courseUser.isCurrentUser
    ensures c.Shown? ==> (c.enabled <==> props.busy == Idle && props.submission.workflowState != Unstarted)
  {
    var disabled := DisableButtons(props.busy) || props.submission.workflowState == Unstarted;
    if !props.assessment.canDeleteAllSubmissions && !props.submission.courseUser.isCurrentUser then Hidden
    else Shown(!disabled)
  }

  /**
   * The unsubmit button: shown to a viewer who may unsubmit; enabled only for
   * a submitted or graded submission while nothing is in progress.
   */
  function UnsubmitButton(props: RowProps): (c: Control)
    ensures c.Hidden? <==> !props.assessment.canUnsubmitSubmission
    ensures c.Shown? ==>
              (c.enabled <==> props.busy == Idle && props.submission.workflowState in {Submitted, Graded})
  {
    var disabled :=
      DisableButtons(props.busy)
      || props.submission.workflowState == Unstarted
      || props.submission.workflowState == Attempting;
    if !props.assessment.canUnsubmitSubmission then Hidden
    else Shown(!disabled)
  }

  /** JavaScript truthiness of a nullable numeric id: null and 0 are false. */
  predicate IdPresent(id: Option<int>) {
    id.Some? && id.value != 0
  }

  /** The access-logs link: only for a password-protected assessment, a viewer who may see logs, and a saved submission. */
  function SubmissionLogsLinkShown(props: RowProps): (shown: bool)
    ensures shown ==> props.assessment.passwordProtected && props.assessment.canViewLogs
    ensures shown ==> IdPresent(props.submission.id)
    ensures props.assessment.passwordProtected && props.assessment.canViewLogs && IdPresent(props.submission.id) ==> shown
  {
    props.assessment.passwordProtected && props.assessment.canViewLogs && IdPresent(props.submission.id)
  }

  /** The warning that a grade is not yet published. */
  function UnpublishedWarningShown(submission: Submission): (shown: bool)
    ensures shown <==> submission.workflowState == Graded
  {
    submission.workflowState == Graded
  }

  /** The workflow column: plain text for an unstarted submission, otherwise a link to edit it. */
  datatype WorkflowCell = UnstartedText | EditLink(unpublishedWarning: bool, shownState: WorkflowState)

  function SubmissionWorkflowState(submission: Submission): (c: WorkflowCell)
    ensures c.UnstartedText? <==> submission.workflowState == Unstarted
    ensures c.EditLink? ==> c.shownState == submission.workflowState
    ensures c.EditLink? ==> (c.unpublishedWarning <==> submission.workflowState == Graded)
  {
    if submission.workflowState == Unstarted then UnstartedText
    else EditLink(UnpublishedWarningShown(submission), submission.workflowState)
  }

  // ---------------------------------------------------------------------------
  // The workflow policy the controls implement
  // ---------------------------------------------------------------------------

  datatype Action = Delete | Unsubmit | ViewLogs

  datatype Permissions = Permissions(canDelete: bool, canUnsubmit: bool, canViewLogs: bool)

  /**
   * The actions a submission's state and the viewer's permissions allow: an
   * unstarted submission can be neither deleted nor unsubmitted, an
   * attempting one cannot be unsubmitted, and a submitted or graded one can
   * be unsubmitted exactly when the viewer may unsubmit.
   */
  function AllowedActions(state: WorkflowState, perms: Permissions): (actions: set<Action>)
    ensures state == Unstarted ==> Delete !in actions && Unsubmit !in actions
    ensures state == Attempting ==> Unsubmit !in actions
    ensures state in {Submitted, Graded} ==> (Unsubmit in actions <==> perms.canUnsubmit)
    ensures state != Unstarted ==> (Delete in actions <==> perms.canDelete)
    ensures ViewLogs in actions <==> perms.canViewLogs
  {
    match state
    case Unstarted => (if perms.canViewLogs then {ViewLogs} else {})
    case Attempting =>
      (if perms.canDelete then {Delete} else {}) + (if perms.canViewLogs then {ViewLogs} else {})
    case _ =>
      (if perms.canDelete then {Delete} else {})
      + (if perms.canUnsubmit then {Unsubmit} else {})
      + (if perms.canViewLogs then {ViewLogs} else {})
  }

  /** The viewer's permissions on one row, as the row's controls read them. */
  function RowPermissions(props: RowProps): (perms: Permissions)
    ensures perms.canDelete <==> props.assessment.canDeleteAllSubmissions || props.submission.courseUser.isCurrentUser
    ensures perms.canUnsubmit <==> props.assessment.canUnsubmitSubmission
    ensures perms.canViewLogs <==>
              props.assessment.passwordProtected && props.assessment.canViewLogs && IdPresent(props.submission.id)
  {
    Permissions(
      props.assessment.canDeleteAllSubmissions || props.submission.courseUser.isCurrentUser,
      props.assessment.canUnsubmitSubmission,
      props.assessment.passwordProtected && props.assessment.canViewLogs && IdPresent(props.submission.id))
  }

  /**
   * The row's controls agree with the policy: a button is shown enabled
   * exactly when its action is allowed and nothing is in progress, and it is
   * shown at all exactly when the viewer holds the permission.
   */
  lemma RowControlsFollowPolicy(props: RowProps)
    ensures var allowed := AllowedActions(props.submission.workflowState, RowPermissions(props));
            && (DeleteButton(props) == Shown(true) <==> props.busy == Idle && Delete in allowed)
            && (UnsubmitButton(props) == Shown(true) <==> props.busy == Idle && Unsubmit in allowed)
            && (SubmissionLogsLinkShown(props) <==> ViewLogs in allowed)
            && (DeleteButton(props).Shown? <==> RowPermissions(props).canDelete)
            && (UnsubmitButton(props).Shown? <==> RowPermissions(props).canUnsubmit)
  {
  }

  // ---------------------------------------------------------------------------
  // Re-rendering
  // ---------------------------------------------------------------------------

  /** The eight fields the row watches. */
  datatype Tracked = Tracked(
    workflowState: WorkflowState,
    busy: BusyFlags,
    state: RowState)

  function TrackedOf(props: RowProps, state: RowState): Tracked {
    Tracked(props.submission.workflowState, props.busy, state)
  }

  /** `shouldComponentUpdate`: re-render when any watched field differs. */
  function ShouldComponentUpdate(props: RowProps, state: RowState, nextProps: RowProps, nextState: RowState): (r: bool)
    ensures r <==> TrackedOf(props, state) != TrackedOf(nextProps, nextState)
    ensures props == nextProps && state == nextState ==> !r
  {
    props.submission.workflowState != nextProps.submission.workflowState
    || props.busy.isDownloadingFiles != nextProps.busy.isDownloadingFiles
    || props.busy.isDownloadingCsv != nextProps.busy.isDownloadingCsv
    || props.busy.isStatisticsDownloading != nextProps.busy.isStatisticsDownloading
    || props.busy.isUnsubmitting != nextProps.busy.isUnsubmitting
    || props.busy.isDeleting != nextProps.busy.isDeleting
    || state.unsubmitConfirmation != nextState.unsubmitConfirmation
    || state.deleteConfirmation != nextState.deleteConfirmation
  }

  /**
   * A skipped re-render shows nothing stale as long as the submission's
   * grade, id and owner and the assessment stay as they were: every decision
   * of the row comes out the same.
   */
  lemma NoUpdateKeepsDecisions(props: RowProps, state: RowState, nextProps: RowProps, nextState: RowState)
    requires !ShouldComponentUpdate(props, state, nextProps, nextState)
    requires nextProps.assessment == props.assessment
    requires nextProps.submission.id == props.submission.id
    requires nextProps.submission.grade == props.submission.grade
    requires nextProps.submission.courseUser == props.submission.courseUser
    ensures GetGradeString(nextProps.submission, nextProps.assessment) == GetGradeString(props.submission, props.assessment)
    ensures DeleteButton(nextProps) == DeleteButton(props)
    ensures UnsubmitButton(nextProps) == UnsubmitButton(props)
    ensures SubmissionLogsLinkShown(nextProps) == SubmissionLogsLinkShown(props)
    ensures SubmissionWorkflowState(nextProps.submission) == SubmissionWorkflowState(props.submission)
    ensures nextState == state
  {
  }

  // ---------------------------------------------------------------------------
  // The confirmation dialogs
  // ---------------------------------------------------------------------------

  /** An action the row dispatches to the store. */
  datatype SubmissionAction =
    | DeleteSubmission(submissionId: Option<int>)
    | UnsubmitSubmission(submissionId: Option<int>)

  class SubmissionsTableRow {
    var props: RowProps
    var unsubmitConfirmation: bool
    var deleteConfirmation: bool
    /** Every action dispatched by the row, oldest first. */
    var dispatched: seq<SubmissionAction>

    function State(): (s: RowState)
      reads this
      ensures s.unsubmitConfirmation == unsubmitConfirmation && s.deleteConfirmation == deleteConfirmation
    {
      RowState(unsubmitConfirmation, deleteConfirmation)
    }

    /** Both dialogs start closed. */
    constructor (props: RowProps)
      ensures this.props == props
      ensures !unsubmitConfirmation && !deleteConfirmation
      ensures dispatched == []
    {
      this.props := props;
      unsubmitConfirmation := false;
      deleteConfirmation := false;
      dispatched := [];
    }

    /** The parent passes new props; the result says whether the row re-renders. */
    method ReceiveProps(nextProps: RowProps) returns (rerender: bool)
      modifies this`props
      ensures props == nextProps
      ensures rerender == ShouldComponentUpdate(old(props), State(), nextProps, State())
    {
      rerender := ShouldComponentUpdate(props, State(), nextProps, State());
      props := nextProps;
    }

    /** A click on the delete button opens its dialog; a hidden or disabled button takes no click. */
    method ClickDeleteButton()
      modifies this`deleteConfirmation
      ensures deleteConfirmation == (old(deleteConfirmation) || DeleteButton(props) == Shown(true))
    {
      if DeleteButton(props) == Shown(true) {
        deleteConfirmation := true;
      }
    }

    method CancelDeleteDialog()
      modifies this`deleteConfirmation
      ensures !deleteConfirmation
    {
      deleteConfirmation := false;
    }

    /** Confirming the open delete dialog dispatches one delete and closes it. */
    method ConfirmDeleteDialog()
      modifies this`deleteConfirmation, this`dispatched
      ensures !deleteConfirmation
      ensures dispatched ==
                old(dispatched) + if old(deleteConfirmation) then [DeleteSubmission(props.submission.id)] else []
    {
      if deleteConfirmation {
        dispatched := dispatched + [DeleteSubmission(props.submission.id)];
        deleteConfirmation := false;
      }
    }

    /** A click on the unsubmit button opens its dialog; a hidden or disabled button takes no click. */
    method ClickUnsubmitButton()
      modifies this`unsubmitConfirmation
      ensures unsubmitConfirmation == (old(unsubmitConfirmation) || UnsubmitButton(props) == Shown(true))
    {
      if UnsubmitButton(props) == Shown(true) {
        unsubmitConfirmation := true;
      }
    }

    method CancelUnsubmitDialog()
      modifies this`unsubmitConfirmation
      ensures !unsubmitConfirmation
    {
      unsubmitConfirmation := false;
    }

    /** Confirming the open unsubmit dialog dispatches one unsubmit and closes it. */
    method ConfirmUnsubmitDialog()
      modifies this`unsubmitConfirmation, this`dispatched
      ensures !unsubmitConfirmation
      ensures dispatched ==
                old(dispatched) + if old(unsubmitConfirmation) then [UnsubmitSubmission(props.submission.id)] else []
    {
      if unsubmitConfirmation {
        dispatched := dispatched + [UnsubmitSubmission(props.submission.id)];
        unsubmitConfirmation := false;
      }
    }
  }
}

=== FILE: wrappers.dfy ===
/** Option and Result values shared by the modules of this model. */
module Wrappers {

  /** A value that may be absent (None) or present (Some); each use says which JavaScript absence None stands for. */
  datatype Option<+T> = None | Some(value: T)

  /** An outcome that either produced a value or raised an error. */
  datatype Result<+R, +E> = Success(value: R) | Failure(error: E)
}
